=== FILE: README.md ===
# Application-state retention for Tomcat hosts, in Dafny

This project models `AppStateRetainerHostListener`, a Tomcat 7 lifecycle
listener attached to a virtual host. The listener makes "which web
applications were running" survive a restart of the host:

- **before_stop**: it collects the names of the child contexts whose state
  is exactly `STARTED` and writes that set to a per-host snapshot file. Any
  earlier snapshot is replaced.
- **before_start**: if a snapshot file exists and can be read, it turns off
  the host's `startChildren` flag. The container then does not start every
  child by itself.
- **after_start**: if the snapshot is non-empty, it starts each child whose
  name is recorded, in child order. A `LifecycleException` from one start is
  logged and the loop goes on. After the loop it deletes the snapshot.

The snapshot lives at `<home>/work/<domain>/<host>/<host>.ser`. Here `<home>`
is the `catalina.home` system property, or `java.io.tmpdir` when that
property is unset.

The model is functional. Hosts, contexts and the store of snapshot files are
immutable values. Each event is a pure function from (host, store,
environment) to an `Effect`: the new host, the new store and the `start`
calls made. Anything the listener learns from outside is a field of `Env`:
both system properties, whether a write or a delete succeeds, and what each
`start` call does.

Modules and files:

- `wrappers.dfy` (`Wrappers`): `Option`.
- `file_paths.dfy` (`FilePaths`): how `java.io.File` on Unix builds paths.
  Runs of `/` collapse, a trailing `/` is dropped, and `new File(parent,
  child)` joins the two parts with one `/`.
- `snapshot_store.dfy` (`SnapshotStore`): the store maps a path to either a
  readable set of names or unreadable content. It has read, write (with two
  failure modes) and delete.
- `catalina.dfy` (`Catalina`): lifecycle states, event type strings, hosts,
  contexts and start outcomes.
- `retainer.dfy` (`Retainer`): the snapshot location, the three handlers,
  the start loop and the dispatch.
- `retainer_properties.dfy` (`RetainerProperties`): properties that span
  several events or hosts. These include a full stop and restart cycle, and
  the three-application example (A and C started, B stopped).

## Behaviour that is easy to miss

The listener's code decides each of these, and the model follows it.

- An empty snapshot still suppresses the automatic start. before_start only
  checks that the read returned a set (`AppStateRetainerHostListener.java`
  line 98). after_start then does nothing, because of the non-empty guard
  at line 74, and so never reaches `deleteFile` at line 89. The empty
  record stays until the next before_stop overwrites it
  (`EmptyRecordSuppressesAndLingers`).
- The snapshot is not always deleted after start (lines 75-92). `deleteFile`
  sits inside the outer `try` after the loop. Any throwable other than
  `LifecycleException` skips it. Two causes are modelled: a child that is
  not a `StandardContext` makes the cast at line 82 fail, and a `start` can
  raise an unexpected fault (`AfterStartAbortKeepsRecord`). The file is
  also kept when `File.delete` returns false (line 196).
- The file name is the host name followed by `.ser` (line 185). The content
  is Java object serialisation of a `LinkedHashSet`. The model treats the
  content as a set of names.

## Model

| member | source | states |
|---|---|---|
| Retainer.LifecycleEvent | tomcat7/src/main/java/com/cloudjee/extensions/tomcat7/AppStateRetainerHostListener.java:42-59 | Only a standard host's before_start, after_start and before_stop events change anything. Any other event type, or any other host class, leaves host and store unchanged and makes no start call. No event changes a file other than the host's own snapshot, and no event changes the host's name, domain or class. |
| Retainer.BeforeStop | tomcat7/src/main/java/com/cloudjee/extensions/tomcat7/AppStateRetainerHostListener.java:61-70 | before_stop leaves the host unchanged and touches only the host's snapshot file. A successful write makes the snapshot read back as exactly the started names. If the stream cannot be opened, the store is unchanged. If serialisation fails part-way, the snapshot reads as none. |
| Retainer.StartedNames | tomcat7/src/main/java/com/cloudjee/extensions/tomcat7/AppStateRetainerHostListener.java:62-68 | A name is in the collected set exactly when some child with that name is in state `Started`. Children in any other state are excluded. |
| RetainerProperties.BeforeStopRecordsStartedApps | tomcat7/src/main/java/com/cloudjee/extensions/tomcat7/AppStateRetainerHostListener.java:61-69 | Through the dispatch, a before_stop with a successful write records a name exactly when a child with that name was `Started`. |
| SnapshotStore.Write | tomcat7/src/main/java/com/cloudjee/extensions/tomcat7/AppStateRetainerHostListener.java:108-126 | A write changes only its own path. After a successful write, a read returns exactly the written set, the empty set included. An open failure changes nothing. A failure after opening leaves a file that reads as none. |
| SnapshotStore.Read | tomcat7/src/main/java/com/cloudjee/extensions/tomcat7/AppStateRetainerHostListener.java:133-156 | A missing file and an unreadable file both read as none, never as an error. A read returns a set exactly when the file exists and is readable, and the set it returns is the one stored at that path. |
| SnapshotStore.WriteReplaces | tomcat7/src/main/java/com/cloudjee/extensions/tomcat7/AppStateRetainerHostListener.java:113-118 | A second successful write replaces the first one completely. The result does not depend on what was written before. |
| SnapshotStore.Delete | tomcat7/src/main/java/com/cloudjee/extensions/tomcat7/AppStateRetainerHostListener.java:192-202 | A delete changes only its own path. When the file system allows the delete, the file is gone afterwards. When it refuses, the store is unchanged. |
| Retainer.BeforeStart | tomcat7/src/main/java/com/cloudjee/extensions/tomcat7/AppStateRetainerHostListener.java:96-101 | before_start changes nothing but `startChildren`. That flag becomes false whenever the snapshot reads as a set, even an empty one. When the snapshot is missing or unreadable, the host is unchanged. |
| RetainerProperties.BeforeStartSuppressesIffRecord | tomcat7/src/main/java/com/cloudjee/extensions/tomcat7/AppStateRetainerHostListener.java:96-101 | For a host with automatic start on, before_start turns the flag off exactly when the snapshot can be read. It never changes the store or the children. |
| Retainer.AfterStart | tomcat7/src/main/java/com/cloudjee/extensions/tomcat7/AppStateRetainerHostListener.java:72-94 | A missing, unreadable or empty snapshot leaves host and store unchanged and makes no start call. Otherwise the start calls are a prefix of the recorded children, taken in child order. Only the children change, and only the host's own file can change. |
| Retainer.StartEach | tomcat7/src/main/java/com/cloudjee/extensions/tomcat7/AppStateRetainerHostListener.java:76-87 | The loop keeps every child's position, name and class. A child whose name is not recorded is left exactly as it was. |
| Retainer.StartEachCalls | tomcat7/src/main/java/com/cloudjee/extensions/tomcat7/AppStateRetainerHostListener.java:76-87 | The start calls are always a prefix of the recorded children's names in child order. When the loop is not ended early, they are exactly that sequence. |
| Retainer.SelectedNames | tomcat7/src/main/java/com/cloudjee/extensions/tomcat7/AppStateRetainerHostListener.java:77-79 | The reference sequence holds a name exactly when the name is recorded and some child carries it. |
| Retainer.SelectedNamesDistinct | tomcat7/src/main/java/com/cloudjee/extensions/tomcat7/AppStateRetainerHostListener.java:76-79 | Child names are unique in a host, so each recorded application gets at most one start call. |
| Retainer.StartEachAbortsIff | tomcat7/src/main/java/com/cloudjee/extensions/tomcat7/AppStateRetainerHostListener.java:81-91 | The run is marked as ended early exactly when some recorded child raises something other than a lifecycle failure: its cast fails or its `start` faults. |
| Retainer.StartEachStates | tomcat7/src/main/java/com/cloudjee/extensions/tomcat7/AppStateRetainerHostListener.java:81-85 | In a loop that runs to the end, each recorded child ends in the state its start produced: `Started` on success, `Failed` on a lifecycle failure. |
| Retainer.StartEachStopsAtAbort | tomcat7/src/main/java/com/cloudjee/extensions/tomcat7/AppStateRetainerHostListener.java:77-91 | After a recorded child that ends the loop, no further `start` is called: the calls are a prefix of the recorded children up to that child, and every later child is left as it was. |
| Retainer.StartEachReachesLater | tomcat7/src/main/java/com/cloudjee/extensions/tomcat7/AppStateRetainerHostListener.java:81-87 | A recorded standard context gets its start call whatever lifecycle failures earlier children raised. Only an earlier child that ends the loop can prevent it. |
| RetainerProperties.AfterStartIsolatesFailures | tomcat7/src/main/java/com/cloudjee/extensions/tomcat7/AppStateRetainerHostListener.java:81-89 | Failure isolation through the dispatch: after_start with a non-empty record calls start on a later recorded context, even if earlier starts raised lifecycle failures. |
| Retainer.AfterStartRestores | tomcat7/src/main/java/com/cloudjee/extensions/tomcat7/AppStateRetainerHostListener.java:72-93 | With a non-empty record and no child that ends the loop, start is called on exactly the recorded children, in child order. Children not recorded are unchanged. Recorded children end in the state their start produced. The record is deleted whenever the file system allows it, even if some starts failed. |
| Retainer.AfterStartAbortKeepsRecord | tomcat7/src/main/java/com/cloudjee/extensions/tomcat7/AppStateRetainerHostListener.java:75-92 | When a recorded child ends the loop with a throwable other than a lifecycle failure, the store is unchanged, so the record survives. |
| RetainerProperties.EmptyRecordSuppressesAndLingers | tomcat7/src/main/java/com/cloudjee/extensions/tomcat7/AppStateRetainerHostListener.java:72-101 | An empty readable record turns automatic start off. The following after_start then makes no change and leaves the empty record in place. |
| Retainer.SnapshotFileLayout | tomcat7/src/main/java/com/cloudjee/extensions/tomcat7/AppStateRetainerHostListener.java:165-181 | For a non-empty domain and host name without `/`, the snapshot file is `<home>/work/<domain>/<host>/<file name>`, where the file name is the serialisation file name of the host. Only the home part is normalised. |
| Retainer.SnapshotDirectoryLayout | tomcat7/src/main/java/com/cloudjee/extensions/tomcat7/AppStateRetainerHostListener.java:167-173 | Normalising the assembled directory string changes only the home part. Domain and host name follow it, one separator each. |
| Retainer.SerializationFileNameElement | tomcat7/src/main/java/com/cloudjee/extensions/tomcat7/AppStateRetainerHostListener.java:184-186 | The file name `<host>.ser` of a proper host name is a single non-empty path element and starts with the host name's first character. |
| Retainer.SnapshotFileNamesHost | tomcat7/src/main/java/com/cloudjee/extensions/tomcat7/AppStateRetainerHostListener.java:165-181 | The domain and the host name can be read back from the snapshot path. |
| Retainer.SnapshotFileInjective | tomcat7/src/main/java/com/cloudjee/extensions/tomcat7/AppStateRetainerHostListener.java:158-186 | Distinct (domain, host name) pairs of proper names get distinct snapshot files. |
| Retainer.SeparatorNameCollides | tomcat7/src/main/java/com/cloudjee/extensions/tomcat7/AppStateRetainerHostListener.java:165-185 | Names that contain a separator break that distinctness: in the same domain, the host names `c` and `/c` get the same snapshot file. The doubled separator collapses, and `new File(dir, "/c.ser")` joins like `new File(dir, "c.ser")`. |
| RetainerProperties.DistinctHostsDistinctRecords | tomcat7/src/main/java/com/cloudjee/extensions/tomcat7/AppStateRetainerHostListener.java:158-181 | Two hosts whose domains and names are non-empty and free of separators, and that differ in domain or name, have different record files. |
| RetainerProperties.HostRecordsAreIsolated | tomcat7/src/main/java/com/cloudjee/extensions/tomcat7/AppStateRetainerHostListener.java:42-59 | For hosts whose domains and names are non-empty and free of separators, no event on one host changes what another host with a different (domain, name) reads from its record. |
| RetainerProperties.RestartRestoresStartedApps | tomcat7/src/main/java/com/cloudjee/extensions/tomcat7/AppStateRetainerHostListener.java:61-101 | Full cycle (stop, start, after start) with successful I/O and successful starts. Automatic start is suppressed. The start calls are exactly the previously started names, in child order. A restarted child ends `Started` exactly when it was started before the stop. A non-empty record is deleted; an empty one stays. |
| RetainerProperties.ScenarioRecorded | tomcat7/src/main/java/com/cloudjee/extensions/tomcat7/AppStateRetainerHostListener.java:62-68 | With A and C started and B stopped, the collected names are {A, C}. |
| RetainerProperties.ScenarioStop | tomcat7/src/main/java/com/cloudjee/extensions/tomcat7/AppStateRetainerHostListener.java:61-69 | In the three-application example, stopping from an empty store leaves exactly one file, holding {A, C}. |
| RetainerProperties.ScenarioSelected | tomcat7/src/main/java/com/cloudjee/extensions/tomcat7/AppStateRetainerHostListener.java:77-79 | Children A, B, C with record {A, C} select A and then C. |
| RetainerProperties.ScenarioRestartCalls | tomcat7/src/main/java/com/cloudjee/extensions/tomcat7/AppStateRetainerHostListener.java:72-101 | In the example, the restart suppresses automatic start and then calls start on A and then C. |
| RetainerProperties.ScenarioRecordDeleted | tomcat7/src/main/java/com/cloudjee/extensions/tomcat7/AppStateRetainerHostListener.java:72-92 | After the example's full cycle, the record file is gone. |
| FilePaths.Normalize | tomcat7/src/main/java/com/cloudjee/extensions/tomcat7/AppStateRetainerHostListener.java:173 | The path `new File(text)` stores has no doubled separator and no trailing separator (except for the root). It is empty only for empty text, and it starts with the same character as the text, so an absolute path stays absolute. |
| FilePaths.NormalizeElements | tomcat7/src/main/java/com/cloudjee/extensions/tomcat7/AppStateRetainerHostListener.java:173 | `new File(text)` names the same path elements as the text, in the same order: only separators are dropped. |
| FilePaths.CollapseElements | tomcat7/src/main/java/com/cloudjee/extensions/tomcat7/AppStateRetainerHostListener.java:173 | Collapsing runs of separators keeps the path elements of the text. |
| FilePaths.ElementsArePathElements | tomcat7/src/main/java/com/cloudjee/extensions/tomcat7/AppStateRetainerHostListener.java:173 | Each path element of a text is non-empty and holds no separator. |
| FilePaths.Resolve | tomcat7/src/main/java/com/cloudjee/extensions/tomcat7/AppStateRetainerHostListener.java:181 | `new File(parent, child)` keeps the child as the end of the result, and the parent as its start unless the parent is the root. |
| FilePaths.ResolveJoins | tomcat7/src/main/java/com/cloudjee/extensions/tomcat7/AppStateRetainerHostListener.java:181 | Between a non-root parent and a child that does not start with a separator, `new File(parent, child)` puts exactly one separator. A child that starts with a separator is appended without adding one. The result is never longer than parent, separator and child together. |
| Retainer.HomeDirectory | tomcat7/src/main/java/com/cloudjee/extensions/tomcat7/AppStateRetainerHostListener.java:160-163 | The definition is the model: the `catalina.home` property, or `java.io.tmpdir` when that is unset. `Retainer.SnapshotFileLayout` states where it ends up in the path. |
| Retainer.SnapshotFile | tomcat7/src/main/java/com/cloudjee/extensions/tomcat7/AppStateRetainerHostListener.java:158-182 | The definition is the model of the path computation. `Retainer.SnapshotFileLayout`, `Retainer.SnapshotFileNamesHost` and `Retainer.SnapshotFileInjective` state its layout, how to read it back, and that different hosts get different files. |
| FilePaths.NormalizeIdempotent | tomcat7/src/main/java/com/cloudjee/extensions/tomcat7/AppStateRetainerHostListener.java:181 | `new File(dir, name)` normalises the parent again, and that changes nothing for a directory that is already normal. |
| FilePaths.ChildFileOfNormal | tomcat7/src/main/java/com/cloudjee/extensions/tomcat7/AppStateRetainerHostListener.java:181 | `new File(dir, name)` with a normal, non-root directory and a proper element name gives `dir/name`. |

## Left out

- The two tomcat6 listeners are not part of this model. `WaveMakerLibsMigrationListener` copies directories and `WaveMakerServerListener` deletes configuration files. Both are file-system I/O with a trivial name filter.
- Logging (`log.debug/info/warn/error`) is dropped; it has no effect on host or store.
- The byte format of Java object serialisation is not modelled. A snapshot file is a readable set of names or unreadable content. A missing stream, a corrupt stream, a non-set object and a serialised `null` all read as none. The insertion order of the `LinkedHashSet` is lost; the listener only uses `contains` on the set.
- `System.getProperty` is replaced by the `catalinaHome` and `tmpDir` fields of `Env`. A missing `java.io.tmpdir` is not modelled.
- The `mkdirs` call while the snapshot path is computed (lines 174-178) is not modelled, because directories are not part of the store. A missing directory shows up as a write whose stream cannot be opened (`OpenFailed`).
- `java.io.File` is modelled for Unix-like platforms only (separator `/`). A `null` domain, which `StringBuilder` would print as the text `null`, is not modelled; the domain is always a string.
- `Retainer.SnapshotFileInjective`: distinctness is proved only for non-empty domain and host names without a separator. Names with a `/` can create nested directories and are not covered.
- `FilePaths.Resolve`: its own contract states only that the child ends the result and a non-root parent starts it. The separator between them is stated by `FilePaths.ResolveJoins`, because as clauses of `Resolve` those facts would be instantiated at every use of the snapshot path and would make the other proofs much more expensive.
- `RetainerProperties.DistinctHostsDistinctRecords`: proved only for non-empty domains and names without a separator. Without that restriction two hosts can share a file: in the same domain, the host names `c` and `/c` give the same file (`Retainer.SeparatorNameCollides`).
- `RetainerProperties.HostRecordsAreIsolated`: proved only for non-empty domains and names without a separator, for the same reason.
- Tomcat's `StandardContext.start()` is reduced to one of three outcomes per name: success (state `Started`), `LifecycleException` (state `Failed`), or another throwable (state unchanged, loop ended). The container's own start-up logic, including starts of contexts that are already running, is not modelled.
- The cast `(Host) event.getLifecycle()` at line 43 fails only if the listener is attached to something that is not a host. Deployments do not do that, so it is not modelled.
- Failures of `close()` on the streams are ignored by the source (lines 124 and 149) and by the model.
- Concurrency between hosts is not modelled: the container delivers one host's events in sequence. What the model does state is that hosts with different names never share a record file, provided the domain and name are non-empty and free of separators (`RetainerProperties.HostRecordsAreIsolated`).
- `RetainerProperties.ScenarioRestartCalls`: the example's final child states are not stated child by child. They follow from `RetainerProperties.RestartRestoresStartedApps` and `Retainer.AfterStartRestores`.

=== FILE: catalina.dfy ===
/** The parts of the servlet container the listener sees: lifecycle states,
    event types, hosts and their child web applications. */
module Catalina {

  /** The run states of a container component, in the container's order. */
  datatype LifecycleState =
    | New | Initializing | Initialized
    | StartingPrep | Starting | Started
    | StoppingPrep | Stopping | Stopped
    | Destroying | Destroyed | Failed
    | MustStop | MustDestroy

  /** The event type strings the container fires around a start and a stop. */
  const BeforeStartEvent: string := "before_start"
  const AfterStartEvent: string := "after_start"
  const BeforeStopEvent: string := "before_stop"

  /** The runtime class of a host; only a standard host is handled. */
  datatype HostKind = StandardHostKind | OtherHostKind

  /** The runtime class of a child; only a standard context can be cast to
      the type whose `start` the listener calls. */
  datatype ContainerKind = StandardContextKind | OtherContainerKind

  /** One web application deployed in a host. */
  datatype Context = Context(name: string, state: LifecycleState, kind: ContainerKind)

  /** A virtual host: its name, the domain (engine name) it belongs to, its
      children in the order the container reports them, and the flag that
      makes the container start every child when the host starts. */
  datatype Host = Host(
    kind: HostKind,
    name: string,
    domain: string,
    children: seq<Context>,
    startChildren: bool)

  /** The container keys children by name, so no two children share one. */
  ghost predicate UniqueNames(children: seq<Context>) {
    forall i, j :: 0 <= i < j < |children| ==> children[i].name != children[j].name
  }

  /** What one explicit `start` call on a web application does: it succeeds,
      it raises the container's checked lifecycle failure, or it raises any
      other throwable. */
  datatype StartOutcome = StartSucceeded | LifecycleFailure | UnexpectedFault

  /** The state a started web application is left in, for the two outcomes
      after which the start loop carries on. */
  function StateAfterStart(o: StartOutcome, before: LifecycleState): LifecycleState {
    match o
    case StartSucceeded => Started
    case LifecycleFailure => Failed
    case UnexpectedFault => before
  }
}

=== FILE: file_paths.dfy ===
/** How java.io.File, on a Unix-like platform, turns the strings the listener
    assembles into file paths: a run of separators collapses to one, a
    trailing separator is dropped, and `new File(parent, child)` joins the two
    normalised parts with a single separator. */
module FilePaths {

  /** `File.separatorChar` on a Unix-like platform. */
  const Separator: char := '/'

  /** True if `s` holds no separator, so it names a single path element. */
  predicate SlashFree(s: string) {
    forall i :: 0 <= i < |s| ==> s[i] != Separator
  }

  /** True if no two separators of `s` are adjacent. */
  predicate NoDoubleSeparator(s: string) {
    forall i :: 0 < i < |s| ==> !(s[i - 1] == Separator && s[i] == Separator)
  }

  /** True if `s` ends inside a path element, so that a following
      non-separator extends that element. */
  predicate EndsInElement(s: string) {
    |s| > 0 && s[|s| - 1] != Separator
  }

  /** The elements after appending `ch` to a string whose elements are
      `elems`; `inElement` says whether that string ends inside an element. */
  function AppendChar(elems: seq<string>, inElement: bool, ch: char): seq<string>
    requires inElement ==> |elems| > 0
  {
    if ch == Separator then elems
    else if inElement then elems[..|elems| - 1] + [elems[|elems| - 1] + [ch]]
    else elems + [[ch]]
  }

  /** The path elements of `s`, in order: its maximal non-empty runs of
      characters other than the separator. */
  function Elements(s: string): (r: seq<string>)
    ensures EndsInElement(s) ==> |r| > 0
  {
    if |s| == 0 then []
    else
      var prefix := s[..|s| - 1];
      AppendChar(Elements(prefix), EndsInElement(prefix), s[|s| - 1])
  }

  /** `s` with every run of separators collapsed to one separator. */
  function Collapse(s: string): (r: string)
    ensures |r| <= |s|
    ensures NoDoubleSeparator(r)
    ensures |s| > 0 ==> |r| > 0 && r[|r| - 1] == s[|s| - 1] && r[0] == s[0]
  {
    if |s| == 0 then []
    else
      var c := Collapse(s[..|s| - 1]);
      var ch := s[|s| - 1];
      if ch == Separator && |c| > 0 && c[|c| - 1] == Separator then c else c + [ch]
  }

  /** The path string `new File(s)` stores: separator runs collapsed and a
      trailing separator dropped, unless the whole path is the root. */
  function Normalize(s: string): (r: string)
    ensures NoDoubleSeparator(r)
    ensures |r| > 1 ==> r[|r| - 1] != Separator
    ensures |s| > 0 ==> |r| > 0 && r[0] == s[0]
  {
    var c := Collapse(s);
    if |c| > 1 && c[|c| - 1] == Separator then c[..|c| - 1] else c
  }

  /** Joins an already normalised parent and child the way the Unix file
      system of java.io does. */
  function Resolve(parent: string, child: string): (r: string)
    ensures |child| <= |r| && r[|r| - |child|..] == child
    ensures parent != [Separator] ==> |parent| <= |r| && r[..|parent|] == parent
  {
    if child == [] then parent
    else if child[0] == Separator then
      (if parent == [Separator] then child else parent + child)
    else if parent == [Separator] then parent + child
    else parent + [Separator] + child
  }

  /** What joins parent and child in `Resolve`: exactly one separator
      between a non-root parent and a child that does not start with one,
      none added for a child that does. */
  lemma ResolveJoins(parent: string, child: string)
    ensures |Resolve(parent, child)| <= |parent| + 1 + |child|
    ensures parent != [Separator] && child != [] && child[0] != Separator ==>
      |Resolve(parent, child)| == |parent| + 1 + |child| && Resolve(parent, child)[|parent|] == Separator
    ensures child != [] && child[0] == Separator ==> |Resolve(parent, child)| <= |parent| + |child|
  {
  }

  /** The path of `new File(parent, child)`; an empty parent stands for the
      root directory. */
  function ChildFile(parent: string, child: string): string {
    var p := if parent == [] then [Separator] else Normalize(parent);
    Resolve(p, Normalize(child))
  }

  /** Splits a path at its last separator into the parent part and the last
      element; a path without a separator is a last element alone. */
  function SplitLast(p: string): (r: (string, string))
    ensures SlashFree(r.1)
    ensures |r.1| <= |p| && p[|p| - |r.1|..] == r.1
  {
    if |p| == 0 then ([], [])
    else if p[|p| - 1] == Separator then (p[..|p| - 1], [])
    else
      var q := SplitLast(p[..|p| - 1]);
      (q.0, q.1 + [p[|p| - 1]])
  }

  /** Every element is non-empty and holds no separator. */
  lemma {:induction false} ElementsArePathElements(s: string)
    ensures forall i :: 0 <= i < |Elements(s)| ==> Elements(s)[i] != [] && SlashFree(Elements(s)[i])
    decreases |s|
  {
    if |s| > 0 {
      ElementsArePathElements(s[..|s| - 1]);
    }
  }

  /** Collapsing separator runs keeps the path elements. */
  lemma {:induction false} CollapseElements(s: string)
    ensures Elements(Collapse(s)) == Elements(s)
    decreases |s|
  {
    if |s| > 0 {
      var s' := s[..|s| - 1];
      var c := Collapse(s');
      var ch := s[|s| - 1];
      CollapseElements(s');
      assert EndsInElement(c) == EndsInElement(s');
      if !(ch == Separator && |c| > 0 && c[|c| - 1] == Separator) {
        assert (c + [ch])[..|c|] == c;
      }
    }
  }

  /** Normalising keeps the path elements: `new File(s)` names the same
      elements as the text `s`, in the same order. */
  lemma NormalizeElements(s: string)
    ensures Elements(Normalize(s)) == Elements(s)
  {
    CollapseElements(s);
    var c := Collapse(s);
    if |c| > 1 && c[|c| - 1] == Separator {
      assert c == c[..|c| - 1] + [Separator];
    }
  }

  /** Appending separator-free text leaves the collapse of the prefix alone. */
  lemma {:induction false} CollapseAppendSlashFree(x: string, y: string)
    requires SlashFree(y)
    ensures Collapse(x + y) == Collapse(x) + y
    decreases |y|
  {
    if |y| > 0 {
      var y' := y[..|y| - 1];
      assert (x + y)[..|x + y| - 1] == x + y';
      assert x + y == (x + y') + [y[|y| - 1]];
      CollapseAppendSlashFree(x, y');
    } else {
      assert x + y == x;
    }
  }

  /** A separator after a non-separator survives collapsing. */
  lemma CollapseAppendSeparator(x: string)
    requires |x| > 0 && x[|x| - 1] != Separator
    ensures Collapse(x + [Separator]) == Collapse(x) + [Separator]
  {
    assert (x + [Separator])[..|x|] == x;
  }

  /** A string without separator runs is its own collapse. */
  lemma {:induction false} CollapseFixpoint(s: string)
    requires NoDoubleSeparator(s)
    ensures Collapse(s) == s
    decreases |s|
  {
    if |s| > 0 {
      var s' := s[..|s| - 1];
      assert NoDoubleSeparator(s') by {
        forall i | 0 < i < |s'|
          ensures !(s'[i - 1] == Separator && s'[i] == Separator)
        {
          assert s'[i - 1] == s[i - 1] && s'[i] == s[i];
        }
      }
      CollapseFixpoint(s');
      assert s == s' + [s[|s| - 1]];
    }
  }

  /** Normalising a normalised path changes nothing. */
  lemma NormalizeIdempotent(s: string)
    ensures Normalize(Normalize(s)) == Normalize(s)
  {
    CollapseFixpoint(Normalize(s));
  }

  /** A non-empty separator-free name is already normal. */
  lemma NormalizeSlashFree(y: string)
    requires y != [] && SlashFree(y)
    ensures Normalize(y) == y
  {
    CollapseAppendSlashFree([], y);
    assert [] + y == y;
  }

  /** Splitting `x/y` at its last separator gives back `x` and `y`. */
  lemma {:induction false} SplitLastJoin(x: string, y: string)
    requires SlashFree(y)
    ensures SplitLast(x + [Separator] + y) == (x, y)
    decreases |y|
  {
    var p := x + [Separator] + y;
    if |y| == 0 {
      assert p[..|p| - 1] == x;
    } else {
      var y' := y[..|y| - 1];
      assert p[..|p| - 1] == x + [Separator] + y';
      SplitLastJoin(x, y');
      assert y' + [y[|y| - 1]] == y;
    }
  }

  /** Joining a separator-free element to a path that does not end in a
      separator adds exactly one separator and the element. */
  lemma CollapseJoin(x: string, y: string)
    requires |x| > 0 && x[|x| - 1] != Separator && SlashFree(y)
    ensures Collapse(x + [Separator] + y) == Collapse(x) + [Separator] + y
  {
    CollapseAppendSeparator(x);
    CollapseAppendSlashFree(x + [Separator], y);
  }

  /** A separator doubled before an element collapses away. */
  lemma NormalizeDoubledSeparator(x: string, y: string)
    requires |x| > 0 && x[|x| - 1] == Separator && SlashFree(y)
    ensures Normalize(x + [Separator] + y) == Normalize(x + y)
  {
    assert (x + [Separator])[..|x|] == x;
    assert Collapse(x + [Separator]) == Collapse(x);
    CollapseAppendSlashFree(x, y);
    CollapseAppendSlashFree(x + [Separator], y);
  }

  /** A separator followed by an element is already normal. */
  lemma NormalizeRootedElement(y: string)
    requires y != [] && SlashFree(y)
    ensures Normalize([Separator] + y) == [Separator] + y
  {
    CollapseAppendSlashFree([Separator], y);
    assert Collapse([Separator]) == [Separator];
  }

  /** Joining `"/" + name` onto a directory other than the root gives the
      same path as joining `name`. */
  lemma ResolveRootedName(dir: string, name: string)
    requires dir != [Separator]
    requires name != [] && SlashFree(name)
    ensures Resolve(dir, [Separator] + name) == Resolve(dir, name) == dir + [Separator] + name
  {
    assert name[0] != Separator;
  }

  /** `new File(dir, "/" + name)` names the same file as `new File(dir,
      name)` when the directory is normal and not the root. */
  lemma ChildFileRootedName(dir: string, name: string)
    requires |dir| > 1 && Normalize(dir) == dir
    requires name != [] && SlashFree(name)
    ensures ChildFile(dir, [Separator] + name) == ChildFile(dir, name)
  {
    assert ChildFile(dir, [Separator] + name) == Resolve(dir, [Separator] + name) by {
      NormalizeRootedElement(name);
    }
    assert ChildFile(dir, name) == Resolve(dir, name) by {
      NormalizeSlashFree(name);
    }
    ResolveRootedName(dir, name);
  }

  /** `new File(dir, name)` for a normalised directory other than the root
      and a proper element name is `dir/name`. */
  lemma ChildFileOfNormal(text: string, name: string)
    requires |Normalize(text)| > 1
    requires name != [] && SlashFree(name)
    ensures ChildFile(Normalize(text), name) == Normalize(text) + [Separator] + name
  {
    NormalizeIdempotent(text);
    NormalizeSlashFree(name);
    assert name[0] != Separator;
  }
}

=== FILE: retainer.dfy ===
/** The application-state retention listener of a host: before the host
    stops it records which web applications are started; before the host
    starts again it turns off the automatic start of children if a record
    exists; after the host has started it starts exactly the recorded
    applications and deletes the record. */
module Retainer {

  import opened Wrappers
  import opened FilePaths
  import opened SnapshotStore
  import opened Catalina

  /** Everything the listener learns from outside the host: the two system
      properties the snapshot location depends on, and the answers of the
      file system and of the web applications' `start` calls. */
  datatype Env = Env(
    catalinaHome: Option<string>,
    tmpDir: string,
    writeFault: WriteFault,
    deleteSucceeds: bool,
    startOutcome: string -> StartOutcome)

  /** What one lifecycle event leaves behind: the host, the snapshot store,
      and the names of the web applications whose `start` was called, in
      call order. */
  datatype Effect = Effect(host: Host, store: Store, startCalls: seq<string>)

  /** The result of the start loop over a host's children. */
  datatype StartRun = StartRun(children: seq<Context>, calls: seq<string>, aborted: bool)

  // ----- Snapshot location -----

  /** The container's home directory, or the temporary directory when the
      home property is unset. */
  function HomeDirectory(env: Env): string {
    match env.catalinaHome
    case Some(h) => h
    case None => env.tmpDir
  }

  /** The directory text assembled as home, "work", domain and host name
      joined by separators. */
  function SnapshotDirectoryText(home: string, domain: string, hostName: string): string {
    home + [Separator] + "work" + [Separator] + domain + [Separator] + hostName
  }

  /** The snapshot file name of a host: its name with the ".ser" suffix. */
  function SerializationFileName(hostName: string): string {
    hostName + ".ser"
  }

  /** The snapshot file name of a proper host name is itself a proper path
      element. */
  lemma SerializationFileNameElement(hostName: string)
    requires PathElement(hostName)
    ensures PathElement(SerializationFileName(hostName))
    ensures SerializationFileName(hostName)[0] == hostName[0]
  {
    var file := SerializationFileName(hostName);
    forall i | 0 <= i < |file| ensures file[i] != Separator {
      if i < |hostName| {
        assert file[i] == hostName[i];
      } else {
        assert file[i] == ".ser"[i - |hostName|];
      }
    }
  }

  /** The snapshot file of the host named `hostName` in `domain`. */
  function SnapshotFile(env: Env, domain: string, hostName: string): string {
    var dir := Normalize(SnapshotDirectoryText(HomeDirectory(env), domain, hostName));
    ChildFile(dir, SerializationFileName(hostName))
  }

  /** True if `s` can serve as one path element: non-empty and without a
      separator. */
  predicate PathElement(s: string) {
    s != [] && SlashFree(s)
  }

  /** The normalised directory text: the home part with "work" is
      normalised, domain and host name follow as they are. */
  lemma SnapshotDirectoryLayout(home: string, domain: string, hostName: string)
    requires PathElement(domain) && PathElement(hostName)
    ensures Normalize(SnapshotDirectoryText(home, domain, hostName)) ==
      Normalize(home + [Separator] + "work") + [Separator] + domain + [Separator] + hostName
  {
    var work := home + [Separator] + "work";
    var withDomain := work + [Separator] + domain;
    assert SnapshotDirectoryText(home, domain, hostName) == withDomain + [Separator] + hostName;
    assert SlashFree("work");
    CollapseAppendSlashFree(home + [Separator], "work");
    CollapseJoin(work, domain);
    CollapseJoin(withDomain, hostName);
  }

  /** With a proper domain and host name the snapshot file is
      `<home>/work/<domain>/<host>/<host>.ser`, the home part normalised,
      where home is the container's home or else the temporary directory. */
  lemma SnapshotFileLayout(env: Env, domain: string, hostName: string)
    requires PathElement(domain) && PathElement(hostName)
    ensures SnapshotFile(env, domain, hostName) ==
      Normalize(HomeDirectory(env) + [Separator] + "work")
        + [Separator] + domain + [Separator] + hostName + [Separator] + SerializationFileName(hostName)
  {
    var text := SnapshotDirectoryText(HomeDirectory(env), domain, hostName);
    SnapshotDirectoryLayout(HomeDirectory(env), domain, hostName);
    SerializationFileNameElement(hostName);
    ChildFileOfNormal(text, SerializationFileName(hostName));
  }

  /** The directory of the host name `/c` is the directory of the host
      name `c`: the doubled separator collapses. */
  lemma SnapshotDirectoryRootedName(home: string, domain: string, c: string)
    requires SlashFree(c)
    ensures Normalize(SnapshotDirectoryText(home, domain, [Separator] + c)) ==
      Normalize(SnapshotDirectoryText(home, domain, c))
  {
    var x := home + [Separator] + "work" + [Separator] + domain + [Separator];
    assert SnapshotDirectoryText(home, domain, c) == x + c;
    assert SnapshotDirectoryText(home, domain, [Separator] + c) == x + [Separator] + c;
    NormalizeDoubledSeparator(x, c);
  }

  /** The snapshot file of the host name `/c` is `new File(dir, "/c.ser")`
      for the directory `dir` of the host name `c`. */
  lemma SnapshotFileRootedName(env: Env, domain: string, c: string)
    requires SlashFree(c)
    ensures SnapshotFile(env, domain, [Separator] + c) ==
      ChildFile(Normalize(SnapshotDirectoryText(HomeDirectory(env), domain, c)), [Separator] + SerializationFileName(c))
  {
    SnapshotDirectoryRootedName(HomeDirectory(env), domain, c);
    assert SerializationFileName([Separator] + c) == [Separator] + SerializationFileName(c);
  }

  /** Without the restriction to proper names two hosts can share a file:
      the host name `/c` lands on the file of the host name `c`, because
      the doubled separator collapses and `new File(dir, "/c.ser")` joins
      like `new File(dir, "c.ser")`. */
  lemma SeparatorNameCollides(env: Env, domain: string, c: string)
    requires PathElement(domain) && PathElement(c)
    ensures SnapshotFile(env, domain, [Separator] + c) == SnapshotFile(env, domain, c)
  {
    var t := SnapshotDirectoryText(HomeDirectory(env), domain, c);
    var file := SerializationFileName(c);
    SnapshotFileRootedName(env, domain, c);
    assert |Normalize(t)| > 1 && Normalize(Normalize(t)) == Normalize(t) by {
      SnapshotDirectoryLayout(HomeDirectory(env), domain, c);
      NormalizeIdempotent(t);
    }
    assert file != [] && SlashFree(file) by {
      SerializationFileNameElement(c);
    }
    ChildFileRootedName(Normalize(t), file);
  }

  /** The domain and host name read back from a snapshot file path: the
      elements before the last two separators. */
  function DomainAndHost(path: string): (string, string) {
    var hostDir := SplitLast(path).0;
    (SplitLast(SplitLast(hostDir).0).1, SplitLast(hostDir).1)
  }

  /** Domain and host name are recovered from a path laid out as
      `<work>/<domain>/<host>/<file>`. */
  lemma DomainAndHostRecovered(work: string, domain: string, hostName: string, file: string)
    requires SlashFree(domain) && SlashFree(hostName) && SlashFree(file)
    ensures DomainAndHost(work + [Separator] + domain + [Separator] + hostName + [Separator] + file) == (domain, hostName)
  {
    SplitLastJoin(work + [Separator] + domain + [Separator] + hostName, file);
    SplitLastJoin(work + [Separator] + domain, hostName);
    SplitLastJoin(work, domain);
  }

  /** The domain and host name can be read back from the snapshot file. */
  lemma SnapshotFileNamesHost(env: Env, domain: string, hostName: string)
    requires PathElement(domain) && PathElement(hostName)
    ensures DomainAndHost(SnapshotFile(env, domain, hostName)) == (domain, hostName)
  {
    var path := SnapshotFile(env, domain, hostName);
    var work := Normalize(HomeDirectory(env) + [Separator] + "work");
    var file := SerializationFileName(hostName);
    assert path == work + [Separator] + domain + [Separator] + hostName + [Separator] + file by {
      SnapshotFileLayout(env, domain, hostName);
    }
    SerializationFileNameElement(hostName);
    DomainAndHostRecovered(work, domain, hostName, file);
  }

  /** Two hosts with proper names share a snapshot file only if they have
      the same domain and the same name. */
  lemma SnapshotFileInjective(env: Env, d1: string, h1: string, d2: string, h2: string)
    requires PathElement(d1) && PathElement(h1) && PathElement(d2) && PathElement(h2)
    requires SnapshotFile(env, d1, h1) == SnapshotFile(env, d2, h2)
    ensures d1 == d2 && h1 == h2
  {
    SnapshotFileNamesHost(env, d1, h1);
    SnapshotFileNamesHost(env, d2, h2);
  }

  // ----- before_stop -----

  /** The names of the children whose state is exactly `Started`. */
  function StartedNames(children: seq<Context>): (names: set<string>)
    ensures forall n :: n in names <==>
      exists i :: 0 <= i < |children| && children[i].name == n && children[i].state == Started
  {
    if |children| == 0 then {}
    else
      var rest := StartedNames(children[1..]);
      assert forall i :: 1 <= i < |children| ==> children[i] == children[1..][i - 1];
      if children[0].state == Started then {children[0].name} + rest else rest
  }

  /** Records the started children of the host as its snapshot, replacing
      any earlier one. The host itself is not changed. */
  function BeforeStop(host: Host, store: Store, env: Env): (r: Effect)
    ensures r.host == host && r.startCalls == []
    ensures SameExcept(r.store, store, SnapshotFile(env, host.domain, host.name))
    ensures env.writeFault == NoFault ==>
      Read(r.store, SnapshotFile(env, host.domain, host.name)) == Some(StartedNames(host.children))
    ensures env.writeFault == OpenFailed ==> r.store == store
    ensures env.writeFault == WriteFailed ==> Read(r.store, SnapshotFile(env, host.domain, host.name)) == None
  {
    var path := SnapshotFile(env, host.domain, host.name);
    Effect(host, Write(store, path, StartedNames(host.children), env.writeFault), [])
  }

  // ----- before_start -----

  /** Turns off the automatic start of children when a snapshot exists and
      can be read, even an empty one. */
  function BeforeStart(host: Host, store: Store, env: Env): (r: Effect)
    ensures r.store == store && r.startCalls == []
    ensures r.host.(startChildren := host.startChildren) == host
    ensures Read(store, SnapshotFile(env, host.domain, host.name)).Some? ==> !r.host.startChildren
    ensures Read(store, SnapshotFile(env, host.domain, host.name)).None? ==> r.host == host
  {
    var path := SnapshotFile(env, host.domain, host.name);
    if Read(store, path).Some? then Effect(host.(startChildren := false), store, [])
    else Effect(host, store, [])
  }

  // ----- after_start -----

  /** The names of the children recorded in `names`, in child order: the
      reference for the calls the start loop makes. */
  function SelectedNames(children: seq<Context>, names: set<string>): (r: seq<string>)
    ensures |r| <= |children|
    ensures forall n :: n in r <==>
      n in names && exists i :: 0 <= i < |children| && children[i].name == n
  {
    if |children| == 0 then []
    else
      var rest := SelectedNames(children[1..], names);
      assert forall i :: 1 <= i < |children| ==> children[i] == children[1..][i - 1];
      if children[0].name in names then [children[0].name] + rest else rest
  }

  /** With nothing recorded, no child is selected. */
  lemma SelectedNamesOfNothing(children: seq<Context>)
    ensures SelectedNames(children, {}) == []
  {
  }

  /** True if handling `c` in the start loop raises a throwable other than
      the lifecycle failure: the cast to a standard context fails, or its
      `start` raises something unexpected. */
  predicate Aborts(c: Context, outcome: string -> StartOutcome) {
    c.kind != StandardContextKind || outcome(c.name) == UnexpectedFault
  }

  /** The loop over the children after the host has started: every child
      named in `names` is cast to a standard context and started; a
      lifecycle failure is swallowed and the loop goes on, any other
      throwable ends the loop. */
  function StartEach(children: seq<Context>, names: set<string>, outcome: string -> StartOutcome): (r: StartRun)
    ensures |r.children| == |children|
    ensures forall i :: 0 <= i < |children| ==>
      r.children[i].name == children[i].name && r.children[i].kind == children[i].kind
    ensures forall i :: 0 <= i < |children| && children[i].name !in names ==> r.children[i] == children[i]
    decreases |children|
  {
    if |children| == 0 then StartRun([], [], false)
    else
      var c := children[0];
      assert forall i :: 1 <= i < |children| ==> children[i] == children[1..][i - 1];
      if c.name !in names then
        var rest := StartEach(children[1..], names, outcome);
        StartRun([c] + rest.children, rest.calls, rest.aborted)
      else if c.kind != StandardContextKind then
        StartRun(children, [], true)
      else if outcome(c.name) == UnexpectedFault then
        StartRun(children, [c.name], true)
      else
        var rest := StartEach(children[1..], names, outcome);
        var started := c.(state := StateAfterStart(outcome(c.name), c.state));
        StartRun([started] + rest.children, [c.name] + rest.calls, rest.aborted)
  }

  /** Without duplicate child names, every recorded name is called at most
      once. */
  lemma {:induction false} SelectedNamesDistinct(children: seq<Context>, names: set<string>)
    requires UniqueNames(children)
    ensures forall i, j :: 0 <= i < j < |SelectedNames(children, names)| ==>
      SelectedNames(children, names)[i] != SelectedNames(children, names)[j]
    decreases |children|
  {
    if |children| > 0 {
      var tail := children[1..];
      assert UniqueNames(tail) by {
        forall i, j | 0 <= i < j < |tail| ensures tail[i].name != tail[j].name {
          assert tail[i] == children[i + 1] && tail[j] == children[j + 1];
        }
      }
      SelectedNamesDistinct(tail, names);
    }
  }

  /** The loop calls `start` on a prefix of the recorded children in child
      order, and on all of them when it is not ended early. */
  lemma {:induction false} StartEachCalls(children: seq<Context>, names: set<string>, outcome: string -> StartOutcome)
    ensures StartEach(children, names, outcome).calls <= SelectedNames(children, names)
    ensures !StartEach(children, names, outcome).aborted ==>
      StartEach(children, names, outcome).calls == SelectedNames(children, names)
    decreases |children|
  {
    if |children| > 0 {
      StartEachCalls(children[1..], names, outcome);
    }
  }

  /** The loop is ended early exactly when some recorded child aborts it. */
  lemma {:induction false} StartEachAbortsIff(children: seq<Context>, names: set<string>, outcome: string -> StartOutcome)
    ensures StartEach(children, names, outcome).aborted <==>
      exists i :: 0 <= i < |children| && children[i].name in names && Aborts(children[i], outcome)
    decreases |children|
  {
    if |children| > 0 {
      var tail := children[1..];
      StartEachAbortsIff(tail, names, outcome);
      assert forall i :: 0 <= i < |tail| ==> tail[i] == children[i + 1];
      if exists i :: 0 <= i < |children| && children[i].name in names && Aborts(children[i], outcome) {
        var i :| 0 <= i < |children| && children[i].name in names && Aborts(children[i], outcome);
        if i > 0 {
          assert tail[i - 1] == children[i];
        }
      }
    }
  }

  /** A run that is not ended early leaves every recorded child in the state
      its `start` produced. */
  lemma {:induction false} StartEachStates(children: seq<Context>, names: set<string>, outcome: string -> StartOutcome)
    requires !StartEach(children, names, outcome).aborted
    ensures forall i :: 0 <= i < |children| && children[i].name in names ==>
      StartEach(children, names, outcome).children[i].state == StateAfterStart(outcome(children[i].name), children[i].state)
    decreases |children|
  {
    if |children| > 0 {
      var tail := children[1..];
      var r := StartEach(children, names, outcome);
      StartEachStates(tail, names, outcome);
      forall i | 0 <= i < |children| && children[i].name in names
        ensures r.children[i].state == StateAfterStart(outcome(children[i].name), children[i].state)
      {
        if i > 0 {
          assert tail[i - 1] == children[i];
        }
      }
    }
  }

  /** The loop stops at an aborting recorded child: `start` is called only
      on recorded children up to it, and every later child is left as it
      was. */
  lemma {:induction false} StartEachStopsAtAbort(children: seq<Context>, names: set<string>, outcome: string -> StartOutcome, j: nat)
    requires j < |children| && children[j].name in names && Aborts(children[j], outcome)
    ensures StartEach(children, names, outcome).calls <= SelectedNames(children[..j + 1], names)
    ensures forall i :: j < i < |children| ==> StartEach(children, names, outcome).children[i] == children[i]
    decreases j
  {
    var r := StartEach(children, names, outcome);
    var tail := children[1..];
    var c := children[0];
    var upTo := children[..j + 1];
    assert upTo[0] == c && upTo[1..] == tail[..j];
    if c.name in names && Aborts(c, outcome) {
      assert r.children == children && |r.calls| <= 1;
      assert SelectedNames(upTo, names)[0] == c.name;
      assert r.calls <= [c.name];
    } else {
      assert j > 0;
      assert tail[j - 1] == children[j];
      var rest := StartEach(tail, names, outcome);
      StartEachStopsAtAbort(tail, names, outcome, j - 1);
      if c.name in names {
        assert r.calls == [c.name] + rest.calls;
        assert SelectedNames(upTo, names) == [c.name] + SelectedNames(tail[..j], names);
      } else {
        assert r.calls == rest.calls;
        assert SelectedNames(upTo, names) == SelectedNames(tail[..j], names);
      }
      assert r.children[1..] == rest.children;
      forall i | j < i < |children| ensures r.children[i] == children[i] {
        assert r.children[i] == rest.children[i - 1];
        assert tail[i - 1] == children[i];
      }
    }
  }

  /** Failure isolation: a recorded standard context is started whatever
      lifecycle failures earlier children raised, as long as no earlier
      recorded child ended the loop with another throwable. */
  lemma {:induction false} StartEachReachesLater(children: seq<Context>, names: set<string>, outcome: string -> StartOutcome, j: nat)
    requires j < |children| && children[j].name in names && children[j].kind == StandardContextKind
    requires forall i :: 0 <= i < j && children[i].name in names ==> !Aborts(children[i], outcome)
    ensures children[j].name in StartEach(children, names, outcome).calls
    decreases j
  {
    var tail := children[1..];
    if j > 0 {
      assert tail[j - 1] == children[j];
      forall i | 0 <= i < j - 1 && tail[i].name in names ensures !Aborts(tail[i], outcome) {
        assert tail[i] == children[i + 1];
      }
      StartEachReachesLater(tail, names, outcome, j - 1);
    }
  }

  /** Starts the recorded web applications once the host has started, then
      deletes the snapshot unless the loop was ended by an unexpected
      throwable. A missing, unreadable or empty snapshot does nothing. */
  function AfterStart(host: Host, store: Store, env: Env): (r: Effect)
    ensures r.host.(children := host.children) == host
    ensures SameExcept(r.store, store, SnapshotFile(env, host.domain, host.name))
    ensures Read(store, SnapshotFile(env, host.domain, host.name)) in {None, Some({})} ==>
      r == Effect(host, store, [])
    ensures Read(store, SnapshotFile(env, host.domain, host.name)).Some? ==>
      r.startCalls <= SelectedNames(host.children, Read(store, SnapshotFile(env, host.domain, host.name)).value)
  {
    var path := SnapshotFile(env, host.domain, host.name);
    match Read(store, path)
    case None => Effect(host, store, [])
    case Some(names) =>
      if names == {} then Effect(host, store, [])
      else
        var run := StartEach(host.children, names, env.startOutcome);
        StartEachCalls(host.children, names, env.startOutcome);
        var store' := if run.aborted then store else Delete(store, path, env.deleteSucceeds);
        Effect(host.(children := run.children), store', run.calls)
  }

  // ----- dispatch -----

  /** The listener's entry point: a standard host's three events are
      handled, every other event and every other host class is ignored. */
  function LifecycleEvent(host: Host, eventType: string, store: Store, env: Env): (r: Effect)
    ensures r.host.name == host.name && r.host.domain == host.domain && r.host.kind == host.kind
    ensures SameExcept(r.store, store, SnapshotFile(env, host.domain, host.name))
    ensures host.kind != StandardHostKind ==> r == Effect(host, store, [])
    ensures eventType !in {BeforeStartEvent, AfterStartEvent, BeforeStopEvent} ==> r == Effect(host, store, [])
  {
    if host.kind == StandardHostKind then
      if eventType == BeforeStartEvent then BeforeStart(host, store, env)
      else if eventType == AfterStartEvent then AfterStart(host, store, env)
      else if eventType == BeforeStopEvent then BeforeStop(host, store, env)
      else Effect(host, store, [])
    else Effect(host, store, [])
  }

  /** After-start with a non-empty record and no aborting child: exactly the
      recorded children are started, in child order, the others are left
      alone, and the record is deleted if the file system allows it. */
  lemma AfterStartRestores(host: Host, store: Store, env: Env)
    requires Read(store, SnapshotFile(env, host.domain, host.name)).Some?
    requires Read(store, SnapshotFile(env, host.domain, host.name)).value != {}
    requires forall i :: (0 <= i < |host.children| &&
      host.children[i].name in Read(store, SnapshotFile(env, host.domain, host.name)).value) ==>
        !Aborts(host.children[i], env.startOutcome)
    ensures var names := Read(store, SnapshotFile(env, host.domain, host.name)).value;
      var r := AfterStart(host, store, env);
      && r.startCalls == SelectedNames(host.children, names)
      && |r.host.children| == |host.children|
      && (forall i :: 0 <= i < |host.children| && host.children[i].name !in names ==>
            r.host.children[i] == host.children[i])
      && (forall i :: 0 <= i < |host.children| && host.children[i].name in names ==>
            r.host.children[i].state == StateAfterStart(env.startOutcome(host.children[i].name), host.children[i].state))
      && (env.deleteSucceeds ==> SnapshotFile(env, host.domain, host.name) !in r.store)
      && (!env.deleteSucceeds ==> r.store == store)
  {
    var names := Read(store, SnapshotFile(env, host.domain, host.name)).value;
    StartEachAbortsIff(host.children, names, env.startOutcome);
    StartEachStates(host.children, names, env.startOutcome);
    StartEachCalls(host.children, names, env.startOutcome);
  }

  /** After-start whose loop is ended by an unexpected throwable keeps the
      record on disk. */
  lemma AfterStartAbortKeepsRecord(host: Host, store: Store, env: Env, j: nat)
    requires Read(store, SnapshotFile(env, host.domain, host.name)).Some?
    requires j < |host.children|
    requires host.children[j].name in Read(store, SnapshotFile(env, host.domain, host.name)).value
    requires Aborts(host.children[j], env.startOutcome)
    ensures AfterStart(host, store, env).store == store
  {
    var path := SnapshotFile(env, host.domain, host.name);
    var names := Read(store, path).value;
    assert names != {};
    StartEachAbortsIff(host.children, names, env.startOutcome);
    var run := StartEach(host.children, names, env.startOutcome);
    assert run.aborted;
    assert AfterStart(host, store, env) == Effect(host.(children := run.children), store, run.calls);
  }
}

=== FILE: retainer_properties.dfy ===
/** Properties of the listener that span the dispatch and several events:
    what each event changes, how hosts stay apart, and what a full stop and
    restart of a host achieves. */
module RetainerProperties {

  import opened Wrappers
  import opened FilePaths
  import opened SnapshotStore
  import opened Catalina
  import opened Retainer

  /** A stop of a standard host records exactly the names of its children
      that are started at that moment, when the write goes through. */
  lemma BeforeStopRecordsStartedApps(host: Host, store: Store, env: Env)
    requires host.kind == StandardHostKind && env.writeFault == NoFault
    ensures var r := LifecycleEvent(host, BeforeStopEvent, store, env);
      && r.host == host
      && Read(r.store, SnapshotFile(env, host.domain, host.name)).Some?
      && forall n :: n in Read(r.store, SnapshotFile(env, host.domain, host.name)).value <==>
           exists i :: 0 <= i < |host.children| && host.children[i].name == n && host.children[i].state == Started
  {
  }

  /** A start of a standard host turns off the automatic start of children
      exactly when its record can be read; otherwise nothing changes. */
  lemma BeforeStartSuppressesIffRecord(host: Host, store: Store, env: Env)
    requires host.kind == StandardHostKind && host.startChildren
    ensures var r := LifecycleEvent(host, BeforeStartEvent, store, env);
      && r.store == store
      && r.host.children == host.children
      && (!r.host.startChildren <==> Read(store, SnapshotFile(env, host.domain, host.name)).Some?)
      && (Read(store, SnapshotFile(env, host.domain, host.name)).None? ==> r == Effect(host, store, []))
  {
  }

  /** An empty record still turns off the automatic start; the after-start
      event then starts nothing and leaves the empty record on disk. */
  lemma EmptyRecordSuppressesAndLingers(host: Host, store: Store, env: Env)
    requires host.kind == StandardHostKind
    requires Read(store, SnapshotFile(env, host.domain, host.name)) == Some({})
    ensures var e := LifecycleEvent(host, BeforeStartEvent, store, env);
      && !e.host.startChildren
      && LifecycleEvent(e.host, AfterStartEvent, e.store, env) == Effect(e.host, store, [])
      && Read(LifecycleEvent(e.host, AfterStartEvent, e.store, env).store, SnapshotFile(env, host.domain, host.name)) == Some({})
  {
  }

  /** Failure isolation at the listener's entry point: with a non-empty
      record, a recorded standard context is started whatever lifecycle
      failures its predecessors raised, unless an earlier recorded child
      ended the loop with another throwable. */
  lemma AfterStartIsolatesFailures(host: Host, store: Store, env: Env, j: nat)
    requires host.kind == StandardHostKind
    requires Read(store, SnapshotFile(env, host.domain, host.name)).Some? && Read(store, SnapshotFile(env, host.domain, host.name)).value != {}
    requires j < |host.children| && host.children[j].kind == StandardContextKind
    requires host.children[j].name in Read(store, SnapshotFile(env, host.domain, host.name)).value
    requires forall i :: (0 <= i < j && host.children[i].name in Read(store, SnapshotFile(env, host.domain, host.name)).value) ==>
      !Aborts(host.children[i], env.startOutcome)
    ensures host.children[j].name in LifecycleEvent(host, AfterStartEvent, store, env).startCalls
  {
    var names := Read(store, SnapshotFile(env, host.domain, host.name)).value;
    StartEachReachesLater(host.children, names, env.startOutcome, j);
    assert LifecycleEvent(host, AfterStartEvent, store, env).startCalls ==
      StartEach(host.children, names, env.startOutcome).calls;
  }

  /** Hosts with proper, different (domain, name) pairs have different
      record files. */
  lemma DistinctHostsDistinctRecords(env: Env, host: Host, other: Host)
    requires PathElement(host.domain) && PathElement(host.name)
    requires PathElement(other.domain) && PathElement(other.name)
    requires host.domain != other.domain || host.name != other.name
    ensures SnapshotFile(env, host.domain, host.name) != SnapshotFile(env, other.domain, other.name)
  {
    if SnapshotFile(env, host.domain, host.name) == SnapshotFile(env, other.domain, other.name) {
      SnapshotFileInjective(env, host.domain, host.name, other.domain, other.name);
    }
  }

  /** Events on one host never touch the record of another host with a
      different domain or name. */
  lemma HostRecordsAreIsolated(host: Host, other: Host, eventType: string, store: Store, env: Env)
    requires PathElement(host.domain) && PathElement(host.name)
    requires PathElement(other.domain) && PathElement(other.name)
    requires host.domain != other.domain || host.name != other.name
    ensures Read(LifecycleEvent(host, eventType, store, env).store, SnapshotFile(env, other.domain, other.name)) == Read(store, SnapshotFile(env, other.domain, other.name))
  {
    DistinctHostsDistinctRecords(env, host, other);
    var r := LifecycleEvent(host, eventType, store, env);
    ReadUnchangedElsewhere(r.store, store, SnapshotFile(env, host.domain, host.name), SnapshotFile(env, other.domain, other.name));
  }

  /** A full stop and restart of a standard host: the stop records the
      started applications, the next start suppresses the automatic start,
      and after the start exactly the recorded applications are started
      again, in child order. A non-empty record is then deleted; an empty
      one stays. */
  lemma RestartRestoresStartedApps(running: Host, restarted: Host, store: Store, env: Env)
    requires running.kind == StandardHostKind && restarted.kind == StandardHostKind
    requires restarted.name == running.name && restarted.domain == running.domain
    requires env.writeFault == NoFault && env.deleteSucceeds
    requires forall i :: 0 <= i < |restarted.children| ==>
      && restarted.children[i].state != Started
      && restarted.children[i].kind == StandardContextKind
      && env.startOutcome(restarted.children[i].name) == StartSucceeded
    ensures var recorded := StartedNames(running.children);
      var s1 := LifecycleEvent(running, BeforeStopEvent, store, env).store;
      var e2 := LifecycleEvent(restarted, BeforeStartEvent, s1, env);
      var e3 := LifecycleEvent(e2.host, AfterStartEvent, e2.store, env);
      && !e2.host.startChildren
      && e3.startCalls == SelectedNames(restarted.children, recorded)
      && |e3.host.children| == |restarted.children|
      && (forall i :: 0 <= i < |restarted.children| ==>
            (e3.host.children[i].state == Started <==> restarted.children[i].name in recorded))
      && (recorded != {} ==> SnapshotFile(env, running.domain, running.name) !in e3.store)
      && (recorded == {} ==> Read(e3.store, SnapshotFile(env, running.domain, running.name)) == Some({}))
  {
    var recorded := StartedNames(running.children);
    var s1 := BeforeStop(running, store, env).store;
    assert LifecycleEvent(running, BeforeStopEvent, store, env).store == s1;
    var e2 := BeforeStart(restarted, s1, env);
    assert LifecycleEvent(restarted, BeforeStartEvent, s1, env) == e2;
    assert e2.host.kind == StandardHostKind && e2.store == s1;
    RestartCycle(running, restarted, store, env);
    assert LifecycleEvent(e2.host, AfterStartEvent, s1, env) == AfterStart(e2.host, s1, env);
  }

  /** The cycle of `RestartRestoresStartedApps`, stated on the handlers.
      It is kept apart from the dispatch version so that neither proof has to
      unfold the dispatch and the handlers at once, which keeps both cheap. */
  lemma RestartCycle(running: Host, restarted: Host, store: Store, env: Env)
    requires restarted.name == running.name && restarted.domain == running.domain
    requires env.writeFault == NoFault && env.deleteSucceeds
    requires forall i :: 0 <= i < |restarted.children| ==>
      && restarted.children[i].state != Started
      && restarted.children[i].kind == StandardContextKind
      && env.startOutcome(restarted.children[i].name) == StartSucceeded
    ensures var recorded := StartedNames(running.children);
      var s1 := BeforeStop(running, store, env).store;
      var e2 := BeforeStart(restarted, s1, env);
      var e3 := AfterStart(e2.host, e2.store, env);
      && !e2.host.startChildren
      && e3.startCalls == SelectedNames(restarted.children, recorded)
      && |e3.host.children| == |restarted.children|
      && (forall i :: 0 <= i < |restarted.children| ==>
            (e3.host.children[i].state == Started <==> restarted.children[i].name in recorded))
      && (recorded != {} ==> SnapshotFile(env, running.domain, running.name) !in e3.store)
      && (recorded == {} ==> Read(e3.store, SnapshotFile(env, running.domain, running.name)) == Some({}))
  {
    var recorded := StartedNames(running.children);
    var s1 := BeforeStop(running, store, env).store;
    assert Read(s1, SnapshotFile(env, restarted.domain, restarted.name)) == Some(recorded);
    var e2 := BeforeStart(restarted, s1, env);
    assert e2.host == restarted.(startChildren := false) && e2.store == s1;
    if recorded != {} {
      RestartFromRecord(restarted, s1, env, recorded);
    } else {
      RestartFromEmptyRecord(restarted, s1, env);
    }
  }

  /** The after-start of a restarted host whose record holds a non-empty
      set: exactly the recorded children are started, and the record goes. */
  lemma RestartFromRecord(restarted: Host, s1: Store, env: Env, recorded: set<string>)
    requires Read(s1, SnapshotFile(env, restarted.domain, restarted.name)) == Some(recorded) && recorded != {}
    requires env.deleteSucceeds
    requires forall i :: 0 <= i < |restarted.children| ==>
      && restarted.children[i].state != Started
      && restarted.children[i].kind == StandardContextKind
      && env.startOutcome(restarted.children[i].name) == StartSucceeded
    ensures var e3 := AfterStart(restarted.(startChildren := false), s1, env);
      && e3.startCalls == SelectedNames(restarted.children, recorded)
      && |e3.host.children| == |restarted.children|
      && (forall i :: 0 <= i < |restarted.children| ==>
            (e3.host.children[i].state == Started <==> restarted.children[i].name in recorded))
      && SnapshotFile(env, restarted.domain, restarted.name) !in e3.store
  {
    var host := restarted.(startChildren := false);
    var path := SnapshotFile(env, host.domain, host.name);
    assert path == SnapshotFile(env, restarted.domain, restarted.name);
    assert Read(s1, path).value == recorded;
    var e3 := AfterStart(host, s1, env);
    forall i | 0 <= i < |host.children| ensures !Aborts(host.children[i], env.startOutcome) {
      assert host.children[i] == restarted.children[i];
    }
    AfterStartRestores(host, s1, env);
    forall i | 0 <= i < |restarted.children|
      ensures e3.host.children[i].state == Started <==> restarted.children[i].name in recorded
    {
      assert host.children[i] == restarted.children[i];
    }
  }

  /** The after-start of a restarted host whose record is the empty set:
      nothing is started and the empty record stays. */
  lemma RestartFromEmptyRecord(restarted: Host, s1: Store, env: Env)
    requires Read(s1, SnapshotFile(env, restarted.domain, restarted.name)) == Some({})
    ensures var e3 := AfterStart(restarted.(startChildren := false), s1, env);
      && e3 == Effect(restarted.(startChildren := false), s1, [])
      && e3.startCalls == SelectedNames(restarted.children, {})
  {
    SelectedNamesOfNothing(restarted.children);
  }

  /** In the example, the started children are A and C. */
  lemma ScenarioRecorded(children: seq<Context>)
    requires children == [Context("A", Started, StandardContextKind),
                          Context("B", Stopped, StandardContextKind),
                          Context("C", Started, StandardContextKind)]
    ensures StartedNames(children) == {"A", "C"}
  {
    assert children[1..] == [children[1], children[2]];
    assert children[1..][1..] == [children[2]];
    assert children[1..][1..][1..] == [];
  }

  /** In the example, A and C are selected for a start, in that order. */
  lemma ScenarioSelected(children: seq<Context>)
    requires children == [Context("A", New, StandardContextKind),
                          Context("B", New, StandardContextKind),
                          Context("C", New, StandardContextKind)]
    ensures SelectedNames(children, {"A", "C"}) == ["A", "C"]
  {
    assert "B" != "A" && "B" != "C";
    assert children[1..][1..] == [children[2]];
  }

  /** The three-application example (A and C started, B stopped) ends
      with the record deleted once A and C are started again. */
  lemma ScenarioRecordDeleted(env: Env, hostName: string, domain: string, running: Host, restarted: Host)
    requires env.writeFault == NoFault && env.deleteSucceeds
    requires forall n :: env.startOutcome(n) == StartSucceeded
    requires running == Host(StandardHostKind, hostName, domain,
      [Context("A", Started, StandardContextKind),
       Context("B", Stopped, StandardContextKind),
       Context("C", Started, StandardContextKind)], true)
    requires restarted == Host(StandardHostKind, hostName, domain,
      [Context("A", New, StandardContextKind),
       Context("B", New, StandardContextKind),
       Context("C", New, StandardContextKind)], true)
    ensures var s1 := LifecycleEvent(running, BeforeStopEvent, map[], env).store;
      var e2 := LifecycleEvent(restarted, BeforeStartEvent, s1, env);
      SnapshotFile(env, running.domain, running.name) !in LifecycleEvent(e2.host, AfterStartEvent, e2.store, env).store
  {
    ScenarioRecorded(running.children);
    RestartRestoresStartedApps(running, restarted, map[], env);
  }

  /** The three-application example, A and C started and B stopped: the
      stop records {A, C} as the only file. */
  lemma ScenarioStop(env: Env, hostName: string, domain: string, running: Host)
    requires env.writeFault == NoFault
    requires running == Host(StandardHostKind, hostName, domain,
      [Context("A", Started, StandardContextKind),
       Context("B", Stopped, StandardContextKind),
       Context("C", Started, StandardContextKind)], true)
    ensures LifecycleEvent(running, BeforeStopEvent, map[], env).store ==
      map[SnapshotFile(env, running.domain, running.name) := Readable({"A", "C"})]
  {
    ScenarioRecorded(running.children);
    var path := SnapshotFile(env, running.domain, running.name);
    assert LifecycleEvent(running, BeforeStopEvent, map[], env) == BeforeStop(running, map[], env);
    assert BeforeStop(running, map[], env).store == Write(map[], path, {"A", "C"}, NoFault);
  }

  /** The restart of the example from the record {A, C}: the automatic
      start is suppressed and `start` is called on A and then C. */
  lemma ScenarioRestartCalls(env: Env, hostName: string, domain: string, restarted: Host, s1: Store)
    requires forall n :: env.startOutcome(n) == StartSucceeded
    requires restarted == Host(StandardHostKind, hostName, domain,
      [Context("A", New, StandardContextKind),
       Context("B", New, StandardContextKind),
       Context("C", New, StandardContextKind)], true)
    requires Read(s1, SnapshotFile(env, restarted.domain, restarted.name)) == Some({"A", "C"})
    ensures var e2 := BeforeStart(restarted, s1, env);
      && !e2.host.startChildren
      && AfterStart(e2.host, e2.store, env).startCalls == ["A", "C"]
  {
    var e2 := BeforeStart(restarted, s1, env);
    assert e2.host == restarted.(startChildren := false) && e2.store == s1;
    forall i | 0 <= i < |e2.host.children| ensures !Aborts(e2.host.children[i], env.startOutcome) {
      assert e2.host.children[i].kind == StandardContextKind;
    }
    assert Read(s1, SnapshotFile(env, e2.host.domain, e2.host.name)) == Some({"A", "C"});
    ScenarioSelected(restarted.children);
    AfterStartRestores(e2.host, s1, env);
  }
}

=== FILE: snapshot_store.dfy ===
/** The persistent store of retention snapshots, one file per path. The
    byte encoding of Java object serialisation is abstracted away: a file
    either holds a readable set of application names or it cannot be read
    back (corrupt, truncated, or holding something that is not a set). */
module SnapshotStore {

  import opened Wrappers

  datatype Entry = Readable(names: set<string>) | Unreadable

  /** The file system as far as snapshots are concerned: an existing file
      is a key of the map. */
  type Store = map<string, Entry>

  /** How writing a snapshot file can go wrong. `OpenFailed`: the output
      stream could not be opened, so an earlier file stays as it was.
      `WriteFailed`: the file was opened (and so truncated) but the
      serialisation failed part-way, leaving content that cannot be read. */
  datatype WriteFault = NoFault | OpenFailed | WriteFailed

  /** The two stores agree on every path other than `p`. */
  ghost predicate SameExcept(s: Store, s': Store, p: string) {
    forall q :: q != p ==> (q in s <==> q in s') && (q in s ==> s[q] == s'[q])
  }

  /** Reads the snapshot at `p`: a missing file and an unreadable one both
      read as "no snapshot", never as an error. */
  function Read(s: Store, p: string): (r: Option<set<string>>)
    ensures p !in s ==> r == None
    ensures p in s && s[p] == Unreadable ==> r == None
    ensures r.Some? <==> p in s && s[p].Readable?
    ensures r.Some? ==> s[p] == Readable(r.value)
  {
    if p in s && s[p].Readable? then Some(s[p].names) else None
  }

  /** Writes `names` as the whole content of the file at `p`, replacing
      whatever was there. */
  function Write(s: Store, p: string, names: set<string>, fault: WriteFault): (r: Store)
    ensures SameExcept(r, s, p)
    ensures fault == NoFault ==> Read(r, p) == Some(names)
    ensures fault == OpenFailed ==> r == s
    ensures fault == WriteFailed ==> p in r && Read(r, p) == None
  {
    match fault
    case NoFault => s[p := Readable(names)]
    case OpenFailed => s
    case WriteFailed => s[p := Unreadable]
  }

  /** Deletes the file at `p` if it exists; `succeeds` is the answer of the
      file system, which may refuse without raising an error. */
  function Delete(s: Store, p: string, succeeds: bool): (r: Store)
    ensures SameExcept(r, s, p)
    ensures succeeds ==> p !in r && Read(r, p) == None
    ensures !succeeds ==> r == s
  {
    if p in s && succeeds then s - {p} else s
  }

  /** A later write replaces an earlier one completely, the empty set
      included. */
  lemma WriteReplaces(s: Store, p: string, first: set<string>, fault: WriteFault, second: set<string>)
    ensures Read(Write(Write(s, p, first, fault), p, second, NoFault), p) == Some(second)
    ensures Write(Write(s, p, first, fault), p, second, NoFault) == Write(s, p, second, NoFault)
  {
  }

  /** Reading any other path than the changed one gives the same answer. */
  lemma ReadUnchangedElsewhere(s: Store, s': Store, p: string, q: string)
    requires SameExcept(s, s', p) && q != p
    ensures Read(s, q) == Read(s', q)
  {
  }
}

=== FILE: wrappers.dfy ===
/** The optional value used wherever the listener works with a reference
    that may be null. */
module Wrappers {

  datatype Option<+T> = None | Some(value: T)
}
